=== FILE: README.md ===
# Room state machine of the zerozero party-game server

This project is a Dafny model of the authoritative game logic in `server.js`.
In the game, players join a room and take turns calling out a number. Every
active player raises a number, and the server compares the called number with
the total raised. It then takes lives away, turns players with no lives left
into spectators, and passes the turn on.

Each socket handler in the server looks a room up in an in-memory `Map`,
checks the request, and mutates the room. Here each handler is a pure
function:

- `Handlers` holds the room-level transitions: join, start, select a number,
  chat, and leave.
- `Round` holds round resolution and the body of the delayed `setTimeout`
  callback that ends the game or advances the turn.
- `Registry` holds the room table `map<RoomId, Room>` and the socket state
  (`socket.id`, `socket.roomId`). It wraps each transition in the lookup and
  names the event the server would emit.

Modules:

- `Wrappers`: `Option` and `Result`.
- `Selections`: the per-round `selections` object. A JavaScript object keeps
  string keys that are not array indices in insertion order, and overwriting
  a key keeps that key's position. Socket ids are never array indices. So the
  object is an insertion-ordered entry list with distinct keys. `Keys`,
  `Lookup` and `Put` give its map view, and `SumRaised` gives the round total.
- `Model`: `Player`, `ChatMessage` and `Room`, plus queries over the player
  list: first player with an id, active count, first active player.
- `Round`: the life-loss rule, `Resolve`, the cyclic turn search (`Seek`,
  `NextTurnIndex`, and the literal `do … while` loop `AdvanceLoop`), and
  `Advance`.
- `Handlers`, `Registry`: as above.
- `Invariants`: properties across transitions.
  - Lives never go negative.
  - A spectator never becomes active again.
  - A *safe* room never makes `selectNumber` throw. A safe room is one whose
    turn index names an active player and where only active players have
    submitted. Every round keeps the room safe.
  - For a player whose id is not yet in the lobby, join followed by leave is
    a round trip.
  - Every room in the table has a player. This is stated on each `Registry`
    handler.
- `Scenarios`: concrete traces of the model, following the code as written,
  including the two ways a disconnect in the middle of a round breaks the
  next resolution.

## Where the code and its comments differ

The model follows the code.

- **Life loss.** The comment at server.js:104 says the other players lose a
  life when the call is *wrong*. The guard at server.js:105 applies the
  penalty when `result.correct` is *true*. The model applies the penalty on
  a right call (`Round.Resolve`, `Scenarios.RightCallCostsOthers`). A wrong call
  changes no lives (`Scenarios.WrongCallChangesNothing`).

## Gaps in the code as written

The model keeps each of these gaps.

- **Selecting before the game starts.** `selectNumber` never checks
  `gameStarted`, so a lobby can resolve rounds.
- **Resubmitting after resolution.** The selections stay full until the
  delayed callback runs. When the round eliminated no one, a resubmission in
  that window resolves the same round again
  (`Scenarios.ResubmitResolvesAgain`). On a right call, the others then lose a
  second life. When the round did eliminate someone, the entry count is above
  the new active count, so an active player's resubmission is only an interim
  update. The eliminated player's resubmission is ignored.
- **Starting twice.** `startGame` does not check `gameStarted` or whether the
  sender belongs to the room. Starting again rewinds the turn to 0. A missing
  room gets the same "at least 2 players" error as a small room.
- **Room codes.** Code collisions are not re-rolled: `rooms.set` replaces the
  old room (`Registry.CreateRoom`).
- **Disconnect.** `disconnect` neither moves `currentTurn` nor drops the
  leaver's selection:
  - If the turn holder sits in the last seat and leaves mid-round, the turn
    index points past the end of the list. `players[currentTurn].id` then
    throws at server.js:92-93 when the round completes. This is the `Faulted`
    outcome (`Scenarios.TurnHolderLeavesThenFault`).
  - If the leaver sits at or before the turn seat, the seats behind it shift
    down. The unchanged index then silently names the next player, who may be
    a spectator.
  - The leaver's entry still counts, so a round can resolve before every
    remaining player has answered (`Scenarios.LeaverStillCounted`).
  - Because `selectNumber` does not check `gameStarted`, a player can submit
    in the lobby and then leave. The stale entry survives `startGame`, so the
    started room can already hold a key of no present player.
- **Delayed callback on a deleted room.** The callback holds the room object
  itself, not its code. If the room was deleted, the callback changes an
  object no one can see.

## Model

| member | source | states |
|---|---|---|
| Selections.Lookup | server.js:93 | A submission is found under a key exactly when that key is one of the object's keys |
| Selections.Put | server.js:86 | After `selections[id] = {spoken, raised}`, `id` maps to the new submission, every other key keeps its old submission, and the key set gains `id` |
| Selections.PutShape | server.js:86-90 | A write keeps the keys distinct, and the entry count grows by one exactly when the key is new |
| Selections.PutNewAppends | server.js:86 | A new key is placed after all existing keys, which is the object's insertion order |
| Selections.PutOldInPlace | server.js:86 | Overwriting a key (last write wins) keeps its position and leaves every other entry unchanged |
| Selections.KeyAt | server.js:90 | The id of every entry is among the object's keys |
| Selections.KeysCount | server.js:90 | With distinct keys, `Object.keys(selections).length` equals the number of entries |
| Selections.SumRaisedAppend | server.js:94 | Adding an entry adds its raised number to the round total |
| Selections.SumRaisedPut | server.js:86-94 | A resubmission changes the round total by exactly the new raised number minus the replaced one |
| Model.FindPlayer | server.js:83 | Returns the index of the first player with the id, or none when no player has it |
| Model.ActiveIds | server.js:89 | The active ids are exactly the ids of the non-spectators |
| Model.FirstActive | server.js:122 | Returns the first non-spectator, with only spectators before it; returns none exactly when the active count is 0 |
| Model.NoActiveMeansAllSpectators | server.js:119-122 | The active count is 0 exactly when every player is a spectator |
| Model.ActiveIdsBound | server.js:89-90 | The number of distinct active ids never exceeds the active-player count |
| Model.ActiveAppend | server.js:58 | Appending players adds their active ids and their active count |
| Round.Penalize | server.js:104-112 | Each active player other than the turn player loses exactly one life and becomes a spectator once lives are at most 0; the turn player and spectators are unchanged; ids and names are kept |
| Round.Resolve | server.js:90-102 | Faults exactly when the turn index is out of range or the turn player has no entry. Otherwise: the total is the sum of all raised numbers; the spoken number is the turn player's own; `correct` holds iff they are equal; players change (by the penalty) only when `correct` is true; the rest of the room is unchanged |
| Round.Succ | server.js:126 | The next seat in the circle is `(i + 1) % n` and stays in range |
| Round.Dist | server.js:125-127 | The forward distance around the circle is below `n` and is 0 only from a seat to itself |
| Round.DistSucc | server.js:126 | One step forward adds one to the forward distance until the circle closes |
| Round.Seek | server.js:125-127 | The walk ends, because an active seat exists, on an in-range active seat; every seat passed before it is a spectator |
| Round.SeekUnique | server.js:125-127 | The nearest active seat ahead is unique, so any seat with that description is the one `Seek` finds |
| Round.SeekAfter | server.js:125-127 | Counting from the old turn index, every seat strictly between it and the new turn is a spectator |
| Round.NextTurnIndex | server.js:125-127 | The new turn is in range and active. From an in-range old turn, it is the first active seat strictly after the old one (cyclically): every seat strictly between is a spectator, and it is the old seat again only when every other seat is a spectator. From a turn index past the end, it is the first active seat at or after `(ct + 1) % n` |
| Round.OtherActive | server.js:119-121 | With two or more active players, there is an active player at a seat other than any given seat |
| Round.TurnMoves | server.js:121-127 | With at least two active players, the turn always moves to a different seat |
| Round.Advance | server.js:117-131 | Selections are emptied. Game over happens iff at most one player is active, keeps the turn, and names the winner: an active player's name, or none iff no one is active. Otherwise the new turn is an in-range active seat; from an in-range old turn it is a different seat, and every seat strictly between the old and the new turn is a spectator; from a turn index past the end, it is the first active seat at or after `(ct + 1) % n`. Players are unchanged |
| Round.AdvanceLoop | server.js:125-127 | The literal `do … while` loop ends on an active seat, and that seat is the same one `NextTurnIndex` gives |
| Handlers.Join | server.js:53-58 | Refused with "already started" iff the game has started. Otherwise exactly one player (id, name, 3 lives, not a spectator) is appended, the existing players are unchanged, and nothing else changes |
| Handlers.Start | server.js:68-74 | Refused with "not enough players" iff fewer than 2 players. Otherwise the game is started at turn 0, with players, selections and chat untouched |
| Handlers.Select | server.js:83-134 | Ignored iff the sender has no player record or its first record is a spectator. Otherwise the new entry list is exactly the old one with the sender's entry written (in place when present, appended when new; last write wins), so other entries and the entry count stay as the object has them. The round resolves iff the entry count equals the active-player count, and then the outcome is `Resolve` of the room holding the new entry; an interim update changes nothing but the selections |
| Handlers.Chat | server.js:142-147 | A line is appended, under the name of the sender's first record, iff the sender has a player record; everything else is unchanged |
| Handlers.RemovePlayer | server.js:154 | Keeps exactly the players whose id differs; empty iff every player had the id; unchanged when no player had it |
| Handlers.RemovePlayerConcat | server.js:154 | Removal works piecewise on any split of the list, so the survivors keep their order |
| Handlers.Leave | server.js:154-157 | The room is deleted iff every player had the leaver's id. Otherwise only the player list changes: turn index and selections are untouched, and at least one player remains |
| Registry.RoomOf | server.js:67 | A room is found iff the socket has a room code that is registered |
| Registry.CreateRoom | server.js:35-43 | Registers under the code a fresh, unstarted room whose only player is the host with 3 lives; replaces any room under that code; keeps the other rooms; records the code on the socket |
| Registry.JoinRoom | server.js:47-62 | A missing room or a started game is an error with nothing changed. Otherwise the stored room differs only by the joiner appended to its players, the code is recorded on the socket, and the room is broadcast |
| Registry.StartGame | server.js:66-75 | A missing room or fewer than 2 players gives the "not enough players" error with nothing changed. Otherwise only that room is started at turn 0 |
| Registry.SelectNumber | server.js:79-134 | Silent with nothing changed when the room is missing or the submission is ignored. Otherwise the changed room is stored, and the event is an interim update, the round result, or the fault |
| Registry.OnAdvance | server.js:117-131 | Does nothing when the room is gone. Otherwise the stored room is the result of the callback body `Round.Advance`: selections emptied, players kept. Game over (with that winner) is emitted iff at most one player is active, and otherwise the next turn with the stored room |
| Registry.SendChat | server.js:138-147 | Silent with nothing changed unless the room exists and the sender has a record. Otherwise the event is a new chat line, carrying the message, the timestamp and the name of the sender's first record, and that line is appended to that room's chat |
| Registry.Disconnect | server.js:151-160 | The room is deleted exactly when no player is left after removing the sender's records. Otherwise only its player list changes |
| Invariants.ResolveEffect | server.js:104-112 | A resolution keeps players healthy; every record evolves without gaining lives; the turn player is untouched; a wrong call changes no one |
| Invariants.HealthKept | server.js:104-112 | Through every transition, lives stay at least 0, and a player is a spectator exactly when no lives remain |
| Invariants.SpectatorsStay | server.js:104-154 | No transition turns a spectator back into an active player or gives back a life; leaving only removes records |
| Invariants.SafeSelectNeverFaults | server.js:90-93 | In a safe room, the resolution always finds the turn player and the turn player's entry |
| Invariants.SafeRound | server.js:86-131 | A safe room stays safe through an interim submission, and is safe again after a resolved round's delayed advance |
| Invariants.SafeKept | server.js:117-145 | Joining, chatting and the turn advance keep a room safe |
| Invariants.DistinctKept | server.js:86-90 | No action gives a connection id two entries in the selections, so the entry count compared at server.js:90 is the number of keys |
| Invariants.StartSafe | server.js:73-74 | Starting a game in which no one has been eliminated, and in which the selections hold distinct keys that all belong to present players, yields a safe room |
| Invariants.CreatedRoomSafe | server.js:37-38 | A newly created room is safe and healthy |
| Invariants.JoinThenLeave | server.js:58-154 | A player whose id is not yet in the lobby joins and then leaves: the player list is restored, or the room is deleted if it was empty |
| Scenarios.RightCallCostsOthers | server.js:104-112 | Three players: A calls 2 and the hands total 2, so B and C each drop to 2 lives, A keeps 3, and the turn passes to B |
| Scenarios.WrongCallChangesNothing | server.js:104-131 | A calls 3 and the hands total 2: no lives change and the turn passes to B |
| Scenarios.EliminatedPlayerIsSkipped | server.js:109-127 | B loses their last life and becomes a spectator, and the advance skips B for C |
| Scenarios.TurnHolderLeavesThenFault | server.js:92-154 | In a safe three-player room whose turn holder sits in the last seat, that player disconnecting mid-round makes the next completed round throw |
| Scenarios.LeaverStillCounted | server.js:90-154 | A leaver's stale entry lets a round resolve before B has answered |
| Scenarios.ResubmitResolvesAgain | server.js:86-118 | After a round that eliminated no one, a second submission during the delay resolves the same round again |

## Left out

- Transport: Express, `http`, socket.io setup, `socket.join` and every `emit`
  (server.js:1-15, server.js:164-167). Broadcasts are returned as an `Event`
  tag. Who receives them is not modelled.
- Room-code generation with `Math.random` (server.js:36): the code is a
  parameter of `Registry.CreateRoom`.
- The 3-second delay (server.js:117, server.js:131): only the callback body
  is modelled, as `Round.Advance` and `Registry.OnAdvance`. When the callback
  runs relative to other events is left to the caller.
- Replaced rooms: a room can be deleted, or replaced by a colliding
  `createRoom` (`rooms.set`, server.js:39), before its timer fires, and a new
  room can then be registered under the same code. The server's callback
  still changes the old, orphaned object. The model cannot tell the two rooms
  apart: `Registry.OnAdvance` advances whatever room is registered under the
  code. For a fresh one-player lobby that means game over with its host named
  as winner.
- `Date.now()` in chat (server.js:144): the timestamp is a parameter.
- The process after the TypeError of server.js:92-93: the model reports the
  `Faulted` outcome and keeps the selection recorded before the throw. What
  the runtime does with the uncaught exception is not modelled.
- JavaScript numbers: lives, turn indexes and the submitted numbers are
  unbounded integers. Floating-point behaviour and payloads that are not
  numbers (`NaN`, `undefined`) are not modelled.
- `public/main.js` and `public/game.js`: DOM wiring, screens, animation and
  the client's dropdown range `0..activeCount*2`. These are presentation and
  hold no authoritative state. The client's `getRooms` request has no handler
  in the server.
- Round.Advance: the winner is stated to be the name of an active player.
  With at most one active player this is the single active player, which is
  the first one the code finds.

=== FILE: handlers.dfy ===
/** The socket handlers of server.js with the transport removed: each one is a
    transition on the `Room` value it looked up. Looking the room up, and the
    broadcasts, are in `Registry`. */
module Handlers {
  import opened Wrappers
  import opened Selections
  import opened Model
  import opened Round

  /** The error messages sent back to the requesting socket. Starting a game
      in a missing room answers with the same message as starting one with
      too few players. */
  datatype Error = RoomNotFound | GameAlreadyStarted | NotEnoughPlayers

  /** Fewest players a game can start with. */
  const MinPlayers: nat := 2

  /** `joinRoom` once the room is found: refused after the game has started,
      otherwise the joiner is appended with full lives. */
  function Join(room: Room, id: PlayerId, name: string): (r: Result<Room, Error>)
    ensures r.Err? <==> room.gameStarted
    ensures r.Err? ==> r.error == GameAlreadyStarted
    ensures r.Ok? ==>
      && |r.value.players| == |room.players| + 1
      && r.value.players[..|room.players|] == room.players
      && r.value.players[|room.players|] == Player(id, name, 3, false)
      && r.value == room.(players := r.value.players)
  {
    if room.gameStarted then Err(GameAlreadyStarted)
    else Ok(room.(players := room.players + [NewPlayer(id, name)]))
  }

  /** `startGame` once the room is found. It does not look at `gameStarted`
      or at `selections`: starting again rewinds the turn to 0. */
  function Start(room: Room): (r: Result<Room, Error>)
    ensures r.Err? <==> |room.players| < MinPlayers
    ensures r.Err? ==> r.error == NotEnoughPlayers
    ensures r.Ok? ==> r.value.gameStarted && r.value.currentTurn == 0
    ensures r.Ok? ==>
      && r.value.id == room.id
      && r.value.players == room.players
      && r.value.selections == room.selections
      && r.value.chat == room.chat
  {
    if |room.players| < MinPlayers then Err(NotEnoughPlayers)
    else Ok(room.(gameStarted := true, currentTurn := 0))
  }

  /** `selectNumber` once the room is found. Only the sender's first player
      record decides whether the sender may play; whether the game has
      started is not checked. */
  function Select(room: Room, sender: PlayerId, spoken: int, raised: int): (o: SelectOutcome)
    ensures o.Ignored? <==>
      FindPlayer(room.players, sender).None? || room.players[FindPlayer(room.players, sender).value].spectator
    ensures !o.Ignored? ==> Lookup(o.room.selections, sender) == Some(Selection(spoken, raised))
    ensures !o.Ignored? ==>
      forall k :: k != sender ==> Lookup(o.room.selections, k) == Lookup(room.selections, k)
    ensures !o.Ignored? ==>
      (o.Interim? <==> |Put(room.selections, sender, Selection(spoken, raised))| != ActiveCount(room.players))
    ensures o.Interim? || o.Faulted? ==>
      o.room == room.(selections := o.room.selections)
    ensures !o.Ignored? ==> o.room.selections == Put(room.selections, sender, Selection(spoken, raised))
    ensures o.Resolved? ==> o.room.currentTurn == room.currentTurn
    ensures o.Resolved? || o.Faulted? ==>
      o == Resolve(room.(selections := Put(room.selections, sender, Selection(spoken, raised))))
  {
    match FindPlayer(room.players, sender)
    case None => Ignored
    case Some(i) =>
      if room.players[i].spectator then Ignored
      else
        var recorded := room.(selections := Put(room.selections, sender, Selection(spoken, raised)));
        if |recorded.selections| == ActiveCount(room.players) then Resolve(recorded)
        else Interim(recorded)
  }

  /** `chat` once the room is found: a sender with a player record gets a
      line appended under that record's name; anyone else is ignored. */
  function Chat(room: Room, sender: PlayerId, msg: string, time: int): (r: Option<Room>)
    ensures r.Some? <==> exists i :: 0 <= i < |room.players| && room.players[i].id == sender
    ensures r.Some? ==>
      && r.value == room.(chat := r.value.chat)
      && |r.value.chat| == |room.chat| + 1
      && r.value.chat[..|room.chat|] == room.chat
      && r.value.chat[|room.chat|].msg == msg
      && r.value.chat[|room.chat|].time == time
      && r.value.chat[|room.chat|].name == room.players[FindPlayer(room.players, sender).value].name
  {
    match FindPlayer(room.players, sender)
    case None => None
    case Some(i) => Some(room.(chat := room.chat + [ChatMessage(room.players[i].name, msg, time)]))
  }

  /** `players.filter(p => p.id !== id)`. */
  function RemovePlayer(ps: seq<Player>, id: PlayerId): (r: seq<Player>)
    ensures forall p :: p in r <==> p in ps && p.id != id
    ensures |r| <= |ps|
    ensures |r| == 0 <==> forall i :: 0 <= i < |ps| ==> ps[i].id == id
    ensures (forall i :: 0 <= i < |ps| ==> ps[i].id != id) ==> r == ps
  {
    if |ps| == 0 then []
    else if ps[0].id == id then RemovePlayer(ps[1..], id)
    else [ps[0]] + RemovePlayer(ps[1..], id)
  }

  /** Removal keeps the survivors in their old order: it works piecewise on
      any split of the list. */
  lemma {:induction false} RemovePlayerConcat(ps: seq<Player>, qs: seq<Player>, id: PlayerId)
    ensures RemovePlayer(ps + qs, id) == RemovePlayer(ps, id) + RemovePlayer(qs, id)
  {
    if |ps| == 0 {
      assert ps + qs == qs;
    } else {
      assert (ps + qs)[1..] == ps[1..] + qs;
      RemovePlayerConcat(ps[1..], qs, id);
    }
  }

  /** `disconnect` once the room is found: every record of the leaver goes;
      `None` means the room is now empty and is deleted. The turn index and
      the selections are left as they were. */
  function Leave(room: Room, id: PlayerId): (r: Option<Room>)
    ensures r.None? <==> forall i :: 0 <= i < |room.players| ==> room.players[i].id == id
    ensures r.Some? ==> r.value == room.(players := RemovePlayer(room.players, id))
    ensures r.Some? ==> |r.value.players| > 0
  {
    var rest := RemovePlayer(room.players, id);
    if |rest| == 0 then None
    else Some(room.(players := rest))
  }
}

=== FILE: invariants.dfy ===
/** Properties of the room state machine that span several transitions:
    lives never go negative, spectators never come back, a well-formed room
    never makes `selectNumber` throw, and the ways a disconnect breaks that. */
module Invariants {
  import opened Wrappers
  import opened Selections
  import opened Model
  import opened Round
  import opened Handlers

  /** A player's lives are never negative, and the player is a spectator
      exactly when no lives remain. */
  predicate Healthy(p: Player) {
    p.lives >= 0 && (p.spectator <==> p.lives == 0)
  }

  predicate AllHealthy(ps: seq<Player>) {
    forall i :: 0 <= i < |ps| ==> Healthy(ps[i])
  }

  /** How one player record may change: same identity, never more lives, and
      a spectator record does not change at all. */
  predicate Evolves(p: Player, q: Player) {
    q.id == p.id && q.name == p.name && q.lives <= p.lives && (p.spectator ==> q == p)
  }

  /** Every room-level transition, with the value each handler receives. */
  datatype Action =
    | JoinAct(id: PlayerId, name: string)
    | StartAct
    | SelectAct(sender: PlayerId, spoken: int, raised: int)
    | AdvanceAct
    | ChatAct(sender: PlayerId, msg: string, time: int)
    | LeaveAct(id: PlayerId)

  /** The room object after an action: unchanged when the action is refused
      or ignored; after the last player leaves it is the emptied room that
      the table no longer holds. */
  function Apply(room: Room, a: Action): Room {
    match a
    case JoinAct(id, name) => (match Join(room, id, name) case Ok(r) => r case Err(_) => room)
    case StartAct => (match Start(room) case Ok(r) => r case Err(_) => room)
    case SelectAct(sender, spoken, raised) =>
      (match Select(room, sender, spoken, raised)
       case Ignored => room
       case Interim(r) => r
       case Resolved(r, _) => r
       case Faulted(r) => r)
    case AdvanceAct => Advance(room).room
    case ChatAct(sender, msg, time) => (match Chat(room, sender, msg, time) case Some(r) => r case None => room)
    case LeaveAct(id) => (match Leave(room, id) case Some(r) => r case None => room.(players := []))
  }

  /** The penalty of a resolved round: healthy players stay healthy, every
      record evolves, the turn player is untouched, and a wrong call changes
      no one. */
  lemma ResolveEffect(room: Room)
    requires Resolve(room).Resolved?
    requires AllHealthy(room.players)
    ensures var o := Resolve(room);
      && AllHealthy(o.room.players)
      && |o.room.players| == |room.players|
      && (forall i :: 0 <= i < |room.players| ==> Evolves(room.players[i], o.room.players[i]))
      && o.room.players[room.currentTurn] == room.players[room.currentTurn]
      && (!o.result.correct ==> o.room.players == room.players)
  {
  }

  /** Lives never go negative and the spectator flag matches "no lives left",
      whatever action a room goes through. */
  lemma {:induction false} HealthKept(room: Room, a: Action)
    requires AllHealthy(room.players)
    ensures AllHealthy(Apply(room, a).players)
  {
  }

  /** A spectator never becomes active again and no one regains a life: the
      records that survive an action are old records, evolved in place. */
  lemma {:induction false} SpectatorsStay(room: Room, a: Action)
    ensures a.LeaveAct? ==> forall q :: q in Apply(room, a).players ==> q in room.players
    ensures !a.LeaveAct? ==>
      && |room.players| <= |Apply(room, a).players|
      && forall i :: 0 <= i < |room.players| ==> Evolves(room.players[i], Apply(room, a).players[i])
  {
  }

  /** A room in which `selectNumber` cannot throw: the turn index names an
      active player, and only active players have submitted. */
  predicate Safe(room: Room) {
    && room.currentTurn < |room.players|
    && !room.players[room.currentTurn].spectator
    && DistinctKeys(room.selections)
    && Keys(room.selections) <= ActiveIds(room.players)
  }

  /** A set inside a set that is no larger than it is that set. */
  lemma SubsetSameSize<T>(a: set<T>, b: set<T>)
    requires a <= b && |b| <= |a|
    ensures a == b
  {
    assert b == a + (b - a);
  }

  /** In a safe room the round resolves only once the turn player has
      submitted, so neither `players[currentTurn]` nor its entry is missing
      at server.js:92-93. */
  lemma {:induction false} SafeSelectNeverFaults(room: Room, sender: PlayerId, spoken: int, raised: int)
    requires Safe(room)
    ensures !Select(room, sender, spoken, raised).Faulted?
  {
    var ps := room.players;
    var f := FindPlayer(ps, sender);
    if f.Some? && !ps[f.value].spectator {
      var v := Selection(spoken, raised);
      var sels := Put(room.selections, sender, v);
      PutShape(room.selections, sender, v);
      KeysCount(sels);
      assert sender in ActiveIds(ps);
      assert Keys(sels) <= ActiveIds(ps);
      if |sels| == ActiveCount(ps) {
        ActiveIdsBound(ps);
        SubsetSameSize(Keys(sels), ActiveIds(ps));
        assert ps[room.currentTurn].id in Keys(sels);
      }
    }
  }

  /** A safe room stays safe through an interim submission, and is safe
      again once the turn advance after a resolved round has run. */
  lemma {:induction false} SafeRound(room: Room, sender: PlayerId, spoken: int, raised: int)
    requires Safe(room)
    ensures Select(room, sender, spoken, raised).Interim? ==>
      Safe(Select(room, sender, spoken, raised).room)
    ensures Select(room, sender, spoken, raised).Resolved? ==>
      Safe(Advance(Select(room, sender, spoken, raised).room).room)
  {
    var ps := room.players;
    var o := Select(room, sender, spoken, raised);
    if o.Interim? || o.Resolved? {
      var v := Selection(spoken, raised);
      PutShape(room.selections, sender, v);
      var f := FindPlayer(ps, sender);
      assert sender in ActiveIds(ps);
      if o.Resolved? {
        var recorded := room.(selections := Put(room.selections, sender, v));
        assert Resolve(recorded) == o;
        var ct := room.currentTurn;
        assert o.room.players[ct] == ps[ct];
      }
    }
  }

  /** Joining, chatting and the turn advance keep a room safe. */
  lemma {:induction false} SafeKept(room: Room, a: Action)
    requires Safe(room)
    requires a.JoinAct? || a.ChatAct? || a.AdvanceAct?
    ensures Safe(Apply(room, a))
  {
  }

  /** Whatever a room goes through, no connection id has two entries in its
      selections, so the entry count is `Object.keys(selections).length`. */
  lemma {:induction false} DistinctKept(room: Room, a: Action)
    requires DistinctKeys(room.selections)
    ensures DistinctKeys(Apply(room, a).selections)
  {
    match a
    case SelectAct(sender, spoken, raised) =>
      PutShape(room.selections, sender, Selection(spoken, raised));
    case _ =>
  }

  /** Starting a game in which nobody has been eliminated yields a safe room. */
  lemma StartSafe(room: Room)
    requires Start(room).Ok?
    requires forall i :: 0 <= i < |room.players| ==> !room.players[i].spectator
    requires DistinctKeys(room.selections) && Keys(room.selections) <= ActiveIds(room.players)
    ensures Safe(Start(room).value)
  {
  }

  /** A freshly created room is safe and healthy. */
  lemma CreatedRoomSafe(code: RoomId, id: PlayerId, name: string)
    ensures var room := EmptyRoom(code).(players := [NewPlayer(id, name)]);
      Safe(room) && AllHealthy(room.players)
  {
  }

  /** A player who joins and then leaves before the game starts leaves the
      player list as it was. */
  lemma JoinThenLeave(room: Room, id: PlayerId, name: string)
    requires !room.gameStarted
    requires forall i :: 0 <= i < |room.players| ==> room.players[i].id != id
    ensures Leave(Join(room, id, name).value, id) ==
      if |room.players| == 0 then None else Some(room)
  {
    var joiner := NewPlayer(id, name);
    RemovePlayerConcat(room.players, [joiner], id);
    assert RemovePlayer([joiner], id) == [];
    assert RemovePlayer(room.players + [joiner], id) == room.players;
  }
}

=== FILE: model.dfy ===
/** The room record held in the server's in-memory table, and the queries the
    handlers run over its player list. */
module Model {
  import opened Wrappers
  import opened Selections

  /** The room code handed out at creation; six upper-case base-36 characters
      in the server, taken here as an arbitrary string. */
  type RoomId = string

  /** Lives every player starts with, at creation and on joining. */
  const StartingLives: int := 3

  datatype Player = Player(id: PlayerId, name: string, lives: int, spectator: bool)

  /** A chat line; `time` is the clock reading taken when it was sent. */
  datatype ChatMessage = ChatMessage(name: string, msg: string, time: int)

  /** One game room. `players` is in join order, which is also the turn order;
      `currentTurn` indexes it; `selections` holds this round's submissions. */
  datatype Room = Room(
    id: RoomId,
    players: seq<Player>,
    gameStarted: bool,
    currentTurn: nat,
    selections: seq<Entry>,
    chat: seq<ChatMessage>)

  /** The player record pushed by room creation and by joining. */
  function NewPlayer(id: PlayerId, name: string): Player {
    Player(id, name, StartingLives, false)
  }

  /** `new Room(id)`: no players, not started, turn 0, nothing selected, no chat. */
  function EmptyRoom(id: RoomId): Room {
    Room(id, [], false, 0, [], [])
  }

  /** `players.find(p => p.id === id)`, as the index of the first match. */
  function FindPlayer(ps: seq<Player>, id: PlayerId): (r: Option<nat>)
    ensures r.Some? ==> r.value < |ps| && ps[r.value].id == id
    ensures r.Some? ==> forall j :: 0 <= j < r.value ==> ps[j].id != id
    ensures r.None? ==> forall j :: 0 <= j < |ps| ==> ps[j].id != id
  {
    if |ps| == 0 then None
    else if ps[0].id == id then Some(0)
    else
      match FindPlayer(ps[1..], id)
      case Some(j) => Some(j + 1)
      case None => None
  }

  /** `players.filter(p => !p.spectator).length`. */
  function ActiveCount(ps: seq<Player>): nat {
    if |ps| == 0 then 0
    else (if ps[0].spectator then 0 else 1) + ActiveCount(ps[1..])
  }

  /** The ids of the players that are not spectators. */
  function ActiveIds(ps: seq<Player>): (r: set<PlayerId>)
    ensures forall i :: 0 <= i < |ps| && !ps[i].spectator ==> ps[i].id in r
    ensures forall x :: x in r ==> exists i :: 0 <= i < |ps| && !ps[i].spectator && ps[i].id == x
  {
    if |ps| == 0 then {}
    else (if ps[0].spectator then {} else {ps[0].id}) + ActiveIds(ps[1..])
  }

  /** `players.find(p => !p.spectator)`, as the index of the first match. */
  function FirstActive(ps: seq<Player>): (r: Option<nat>)
    ensures r.Some? ==> r.value < |ps| && !ps[r.value].spectator
    ensures r.Some? ==> forall j :: 0 <= j < r.value ==> ps[j].spectator
    ensures r.None? <==> ActiveCount(ps) == 0
  {
    if |ps| == 0 then None
    else if !ps[0].spectator then Some(0)
    else
      match FirstActive(ps[1..])
      case Some(j) => Some(j + 1)
      case None => None
  }

  /** No player is active exactly when every player is a spectator. */
  lemma {:induction false} NoActiveMeansAllSpectators(ps: seq<Player>)
    ensures ActiveCount(ps) == 0 <==> forall i :: 0 <= i < |ps| ==> ps[i].spectator
  {
    if |ps| > 0 {
      NoActiveMeansAllSpectators(ps[1..]);
      assert forall i :: 1 <= i < |ps| ==> ps[i] == ps[1..][i - 1];
    }
  }

  /** Two players with the same id count twice but add one id, so the set of
      active ids is never larger than the active count. */
  lemma {:induction false} ActiveIdsBound(ps: seq<Player>)
    ensures |ActiveIds(ps)| <= ActiveCount(ps)
  {
    if |ps| > 0 {
      ActiveIdsBound(ps[1..]);
    }
  }

  /** Appending players adds their active ids and their active count. */
  lemma {:induction false} ActiveAppend(ps: seq<Player>, qs: seq<Player>)
    ensures ActiveIds(ps + qs) == ActiveIds(ps) + ActiveIds(qs)
    ensures ActiveCount(ps + qs) == ActiveCount(ps) + ActiveCount(qs)
  {
    if |ps| > 0 {
      ActiveAppend(ps[1..], qs);
      assert (ps + qs)[1..] == ps[1..] + qs;
    } else {
      assert ps + qs == qs;
    }
  }
}

=== FILE: registry.dfy ===
/** The server's `rooms` table and the socket handlers around the room-level
    transitions: each looks a room up, applies the transition, stores the result
    and names the event the server emits. Socket state is the `Conn` value:
    its id, and the room code saved by the last create or join. */
module Registry {
  import opened Wrappers
  import opened Selections
  import opened Model
  import opened Round
  import opened Handlers

  /** `const rooms = new Map()`. */
  type Rooms = map<RoomId, Room>

  /** A socket: `socket.id` and `socket.roomId` (unset until a create or join). */
  datatype Conn = Conn(id: PlayerId, roomId: Option<RoomId>)

  /** What the server emits after a handler; `Fault` stands for the uncaught
      TypeError of `selectNumber`, `Quiet` for a handler that emits nothing. */
  datatype Event =
    | RoomCreated(roomId: RoomId, room: Room)
    | UpdateRoom(room: Room)
    | ErrorMessage(error: Error)
    | GameStarted(room: Room)
    | RoundResultSent(result: RoundResult)
    | NextTurnSent(room: Room)
    | GameOverSent(winner: Option<string>)
    | NewChat(message: ChatMessage)
    | Fault
    | Quiet

  /** The table, the socket and the event after a socket handler. */
  datatype Step = Step(rooms: Rooms, conn: Conn, event: Event)

  /** The table and the event after a timer callback. */
  datatype Fired = Fired(rooms: Rooms, event: Event)

  /** Every registered room has at least one player. */
  predicate NoEmptyRoom(rooms: Rooms) {
    forall id :: id in rooms ==> |rooms[id].players| > 0
  }

  /** `rooms.get(socket.roomId)`; an unset code finds nothing. */
  function RoomOf(rooms: Rooms, conn: Conn): (r: Option<Room>)
    ensures r.Some? <==> conn.roomId.Some? && conn.roomId.value in rooms
    ensures r.Some? ==> r.value == rooms[conn.roomId.value]
  {
    match conn.roomId
    case None => None
    case Some(id) => if id in rooms then Some(rooms[id]) else None
  }

  /** `createRoom`: the code is drawn at random by the server and is a
      parameter here. A room already registered under that code is replaced. */
  function CreateRoom(rooms: Rooms, conn: Conn, code: RoomId, name: string): (s: Step)
    ensures s.rooms.Keys == rooms.Keys + {code}
    ensures forall id :: id in rooms && id != code ==> s.rooms[id] == rooms[id]
    ensures s.rooms[code].id == code && !s.rooms[code].gameStarted
    ensures s.rooms[code].players == [Player(conn.id, name, 3, false)]
    ensures s.rooms[code].selections == [] && s.rooms[code].chat == [] && s.rooms[code].currentTurn == 0
    ensures s.conn == conn.(roomId := Some(code))
    ensures s.event == RoomCreated(code, s.rooms[code])
    ensures NoEmptyRoom(rooms) ==> NoEmptyRoom(s.rooms)
  {
    var room := EmptyRoom(code).(players := [NewPlayer(conn.id, name)]);
    Step(rooms[code := room], conn.(roomId := Some(code)), RoomCreated(code, room))
  }

  /** `joinRoom`: the code comes with the request, not from the socket. */
  function JoinRoom(rooms: Rooms, conn: Conn, code: RoomId, name: string): (s: Step)
    ensures code !in rooms ==> s == Step(rooms, conn, ErrorMessage(RoomNotFound))
    ensures code in rooms && rooms[code].gameStarted ==>
      s == Step(rooms, conn, ErrorMessage(GameAlreadyStarted))
    ensures code in rooms && !rooms[code].gameStarted ==>
      && code in s.rooms && s.rooms == rooms[code := s.rooms[code]]
      && s.rooms[code] == rooms[code].(players := rooms[code].players + [NewPlayer(conn.id, name)])
      && s.conn == conn.(roomId := Some(code))
      && s.event == UpdateRoom(s.rooms[code])
    ensures NoEmptyRoom(rooms) ==> NoEmptyRoom(s.rooms)
  {
    if code !in rooms then Step(rooms, conn, ErrorMessage(RoomNotFound))
    else
      match Join(rooms[code], conn.id, name)
      case Err(e) => Step(rooms, conn, ErrorMessage(e))
      case Ok(room) =>
        assert room.players == rooms[code].players + [NewPlayer(conn.id, name)];
        Step(rooms[code := room], conn.(roomId := Some(code)), UpdateRoom(room))
  }

  /** `startGame`: a missing room and a room of fewer than two players get the
      same error. */
  function StartGame(rooms: Rooms, conn: Conn): (s: Step)
    ensures s.conn == conn
    ensures s.event.ErrorMessage? <==> RoomOf(rooms, conn).None? || |RoomOf(rooms, conn).value.players| < MinPlayers
    ensures s.event.ErrorMessage? ==> s.rooms == rooms && s.event.error == NotEnoughPlayers
    ensures !s.event.ErrorMessage? ==>
      var code := conn.roomId.value;
      && s.rooms == rooms[code := rooms[code].(gameStarted := true, currentTurn := 0)]
      && s.event == GameStarted(s.rooms[code])
    ensures NoEmptyRoom(rooms) ==> NoEmptyRoom(s.rooms)
  {
    match RoomOf(rooms, conn)
    case None => Step(rooms, conn, ErrorMessage(NotEnoughPlayers))
    case Some(room) =>
      match Start(room)
      case Err(e) => Step(rooms, conn, ErrorMessage(e))
      case Ok(started) =>
        Step(rooms[conn.roomId.value := started], conn, GameStarted(started))
  }

  /** `selectNumber`: silent when the room is missing or the sender may not
      play; otherwise the room is stored whatever happened to it, including
      the selection recorded before a fault. A `RoundResultSent` event means
      the turn advance is now scheduled (see `OnAdvance`). */
  function SelectNumber(rooms: Rooms, conn: Conn, spoken: int, raised: int): (s: Step)
    ensures s.conn == conn
    ensures RoomOf(rooms, conn).None? ==> s == Step(rooms, conn, Quiet)
    ensures RoomOf(rooms, conn).Some? ==>
      var code := conn.roomId.value;
      match Select(rooms[code], conn.id, spoken, raised)
      case Ignored => s == Step(rooms, conn, Quiet)
      case Interim(room) => s.rooms == rooms[code := room] && s.event == UpdateRoom(room)
      case Resolved(room, result) => s.rooms == rooms[code := room] && s.event == RoundResultSent(result)
      case Faulted(room) => s.rooms == rooms[code := room] && s.event == Fault
    ensures NoEmptyRoom(rooms) ==> NoEmptyRoom(s.rooms)
  {
    match RoomOf(rooms, conn)
    case None => Step(rooms, conn, Quiet)
    case Some(room) =>
      var code := conn.roomId.value;
      match Select(room, conn.id, spoken, raised)
      case Ignored => Step(rooms, conn, Quiet)
      case Interim(r) => Step(rooms[code := r], conn, UpdateRoom(r))
      case Resolved(r, result) => Step(rooms[code := r], conn, RoundResultSent(result))
      case Faulted(r) => Step(rooms[code := r], conn, Fault)
  }

  /** The delayed callback scheduled by a resolved round. The server's
      callback holds the room object itself; while the room is registered
      that object is `rooms[code]`, and once it has been deleted its changes
      are seen by no one, so the table is left as it is. */
  function OnAdvance(rooms: Rooms, code: RoomId): (f: Fired)
    ensures code !in rooms ==> f == Fired(rooms, Quiet)
    ensures code in rooms ==>
      && code in f.rooms && f.rooms == rooms[code := f.rooms[code]]
      && f.rooms[code].selections == []
      && f.rooms[code].players == rooms[code].players
      && (f.event.GameOverSent? <==> ActiveCount(rooms[code].players) <= 1)
      && (f.event.NextTurnSent? <==> ActiveCount(rooms[code].players) > 1)
      && f.rooms[code] == Advance(rooms[code]).room
      && (f.event.GameOverSent? ==> f.event.winner == Advance(rooms[code]).winner)
      && (f.event.NextTurnSent? ==> f.event.room == f.rooms[code])
    ensures NoEmptyRoom(rooms) ==> NoEmptyRoom(f.rooms)
  {
    if code !in rooms then Fired(rooms, Quiet)
    else
      match Advance(rooms[code])
      case GameOver(room, winner) => Fired(rooms[code := room], GameOverSent(winner))
      case NextTurn(room) => Fired(rooms[code := room], NextTurnSent(room))
  }

  /** `chat`: the timestamp is the clock reading taken by the server. */
  function SendChat(rooms: Rooms, conn: Conn, msg: string, time: int): (s: Step)
    ensures s.conn == conn
    ensures s.event.Quiet? ==> s.rooms == rooms
    ensures s.event.Quiet? <==>
      RoomOf(rooms, conn).None? ||
      forall i :: 0 <= i < |RoomOf(rooms, conn).value.players| ==> RoomOf(rooms, conn).value.players[i].id != conn.id
    ensures !s.event.Quiet? ==> s.event.NewChat?
    ensures s.event.NewChat? ==>
      var code := conn.roomId.value;
      var ps := rooms[code].players;
      && s.rooms == rooms[code := rooms[code].(chat := rooms[code].chat + [s.event.message])]
      && s.event.message.msg == msg && s.event.message.time == time
      && s.event.message.name == ps[FindPlayer(ps, conn.id).value].name
    ensures NoEmptyRoom(rooms) ==> NoEmptyRoom(s.rooms)
  {
    match RoomOf(rooms, conn)
    case None => Step(rooms, conn, Quiet)
    case Some(room) =>
      match Chat(room, conn.id, msg, time)
      case None => Step(rooms, conn, Quiet)
      case Some(r) =>
        var line := r.chat[|room.chat|];
        assert r.chat == room.chat + [line];
        Step(rooms[conn.roomId.value := r], conn, NewChat(line))
  }

  /** `disconnect`: the socket leaves the room it last created or joined; the
      room is deleted exactly when no player remains in it. */
  function Disconnect(rooms: Rooms, conn: Conn): (s: Step)
    ensures s.conn == conn
    ensures RoomOf(rooms, conn).None? ==> s == Step(rooms, conn, Quiet)
    ensures RoomOf(rooms, conn).Some? ==>
      var code := conn.roomId.value;
      var rest := RemovePlayer(rooms[code].players, conn.id);
      && (code !in s.rooms <==> |rest| == 0)
      && (|rest| == 0 ==> s.rooms == rooms - {code} && s.event == Quiet)
      && (|rest| > 0 ==>
            s.rooms == rooms[code := rooms[code].(players := rest)] && s.event == UpdateRoom(s.rooms[code]))
    ensures NoEmptyRoom(rooms) ==> NoEmptyRoom(s.rooms)
  {
    match RoomOf(rooms, conn)
    case None => Step(rooms, conn, Quiet)
    case Some(room) =>
      var code := conn.roomId.value;
      match Leave(room, conn.id)
      case None =>
        Step(rooms - {code}, conn, Quiet)
      case Some(r) => Step(rooms[code := r], conn, UpdateRoom(r))
  }
}

=== FILE: round.dfy ===
/** Round resolution and the delayed turn advance of the `selectNumber`
    handler (server.js:88-131). */
module Round {
  import opened Wrappers
  import opened Selections
  import opened Model

  /** The `roundResult` broadcast. */
  datatype RoundResult = RoundResult(
    total: int,
    spokenNum: int,
    correct: bool,
    currentPlayer: string,
    selections: seq<Entry>)

  /** What a `selectNumber` call does to its room.
      `Faulted` is the handler throwing a TypeError at server.js:92-93 (the
      turn index is past the end of `players`, or the turn player has no
      entry); its room is the one left behind, which already holds the
      selection recorded before the throw. */
  datatype SelectOutcome =
    | Ignored
    | Interim(room: Room)
    | Resolved(room: Room, result: RoundResult)
    | Faulted(room: Room)

  /** The `setTimeout` callback's two endings: `gameOver` with the name of the
      first active player (if any), or `nextTurn`. */
  datatype AdvanceOutcome =
    | GameOver(room: Room, winner: Option<string>)
    | NextTurn(room: Room)

  /** One player's share of the life-loss rule as the code applies it: every
      active player whose id differs from the turn player's loses a life and
      is made a spectator once at most 0 lives remain. */
  function Hit(p: Player, turnId: PlayerId): Player {
    if p.id != turnId && !p.spectator then
      var lives := p.lives - 1;
      p.(lives := lives, spectator := lives <= 0)
    else p
  }

  /** The `players.forEach` at server.js:106-111. */
  function Penalize(ps: seq<Player>, turnId: PlayerId): (r: seq<Player>)
    ensures |r| == |ps|
    ensures forall i :: 0 <= i < |ps| ==> r[i].id == ps[i].id && r[i].name == ps[i].name
    ensures forall i :: 0 <= i < |ps| && (ps[i].id == turnId || ps[i].spectator) ==> r[i] == ps[i]
    ensures forall i :: 0 <= i < |ps| && ps[i].id != turnId && !ps[i].spectator ==>
              r[i].lives == ps[i].lives - 1 && (r[i].spectator <==> r[i].lives <= 0)
  {
    seq(|ps|, i requires 0 <= i < |ps| => Hit(ps[i], turnId))
  }

  /** Resolves the round of a room whose selections are complete: reads the
      turn player's spoken number, totals every raised number and, as the code
      is written, takes a life from the others when the total matches. */
  function Resolve(room: Room): (o: SelectOutcome)
    ensures !o.Interim? && !o.Ignored?
    ensures o.Faulted? <==>
      room.currentTurn >= |room.players| ||
      Lookup(room.selections, room.players[room.currentTurn].id).None?
    ensures o.Faulted? ==> o.room == room
    ensures o.Resolved? ==>
      var cp := room.players[room.currentTurn];
      && o.result.total == SumRaised(room.selections)
      && Lookup(room.selections, cp.id) == Some(Selection(o.result.spokenNum, RaisedOf(room.selections, cp.id)))
      && (o.result.correct <==> o.result.total == o.result.spokenNum)
      && o.result.currentPlayer == cp.name
      && o.result.selections == room.selections
      && o.room == room.(players := o.room.players)
      && o.room.players == if o.result.correct then Penalize(room.players, cp.id) else room.players
  {
    if room.currentTurn >= |room.players| then Faulted(room)
    else
      var cp := room.players[room.currentTurn];
      match Lookup(room.selections, cp.id)
      case None => Faulted(room)
      case Some(s) =>
        var total := SumRaised(room.selections);
        var correct := total == s.spoken;
        var players := if correct then Penalize(room.players, cp.id) else room.players;
        Resolved(room.(players := players), RoundResult(total, s.spoken, correct, cp.name, room.selections))
  }

  /** The index after `i` in a circle of `n` seats. */
  function Succ(n: nat, i: nat): (r: nat)
    requires i < n
    ensures r < n && r == (i + 1) % n
  {
    if i + 1 == n then
      assert (i + 1) % n == n % n == 0;
      0
    else
      assert (i + 1) % n == i + 1;
      i + 1
  }

  /** How many steps forward around a circle of `n` seats lead from `i` to `k`. */
  function Dist(n: nat, i: nat, k: nat): (r: nat)
    requires i < n && k < n
    ensures r < n
    ensures r == 0 <==> i == k
  {
    if i <= k then k - i else k + n - i
  }

  /** One step forward adds one to the distance walked, until the walk
      would close the circle. */
  lemma DistSucc(n: nat, i: nat, k: nat)
    requires i < n && k < n && Dist(n, i, k) + 1 < n
    ensures Dist(n, i, Succ(n, k)) == Dist(n, i, k) + 1
  {
  }

  /** The first active seat met walking forward from `i`, `i` included. */
  function Seek(ps: seq<Player>, i: nat): (r: nat)
    requires i < |ps| && ActiveCount(ps) > 0
    ensures r < |ps| && !ps[r].spectator
    ensures forall k :: 0 <= k < |ps| && Dist(|ps|, i, k) < Dist(|ps|, i, r) ==> ps[k].spectator
    decreases Dist(|ps|, i, FirstActive(ps).value)
  {
    if !ps[i].spectator then i else Seek(ps, Succ(|ps|, i))
  }

  /** Only one active seat is the nearest one walking forward from `i`. */
  lemma SeekUnique(ps: seq<Player>, i: nat, r: nat)
    requires i < |ps| && ActiveCount(ps) > 0
    requires r < |ps| && !ps[r].spectator
    requires forall k :: 0 <= k < |ps| && Dist(|ps|, i, k) < Dist(|ps|, i, r) ==> ps[k].spectator
    ensures r == Seek(ps, i)
  {
  }

  /** The turn index the `do … while` loop at server.js:125-127 settles on:
      the first active seat strictly after `ct` (wrapping around), or `ct`
      itself when it is the only active seat. */
  function NextTurnIndex(ps: seq<Player>, ct: nat): (r: nat)
    requires ActiveCount(ps) > 0
    ensures r < |ps| && !ps[r].spectator
    ensures ct < |ps| ==>
      forall k :: 0 <= k < |ps| && 0 < Dist(|ps|, ct, k) < Dist(|ps|, ct, r) ==> ps[k].spectator
    ensures ct < |ps| && r == ct ==> forall k :: 0 <= k < |ps| && k != ct ==> ps[k].spectator
    ensures ct >= |ps| ==>
      var s := (ct + 1) % |ps|;
      forall k :: 0 <= k < |ps| && Dist(|ps|, s, k) < Dist(|ps|, s, r) ==> ps[k].spectator
  {
    if ct < |ps| then
      assert (ct + 1) % |ps| == Succ(|ps|, ct);
      SeekAfter(ps, ct);
      Seek(ps, (ct + 1) % |ps|)
    else
      Seek(ps, (ct + 1) % |ps|)
  }

  /** Walking from the seat after `ct` passes only spectators before the seat
      `Seek` stops at, counting distances from `ct` itself. */
  lemma SeekAfter(ps: seq<Player>, ct: nat)
    requires ActiveCount(ps) > 0 && ct < |ps|
    ensures var r := Seek(ps, Succ(|ps|, ct));
      forall k :: 0 <= k < |ps| && 0 < Dist(|ps|, ct, k) < Dist(|ps|, ct, r) ==> ps[k].spectator
  {
  }

  /** With two or more active players the turn always moves to another seat. */
  lemma TurnMoves(ps: seq<Player>, ct: nat)
    requires ActiveCount(ps) >= 2 && ct < |ps|
    ensures NextTurnIndex(ps, ct) != ct
  {
    var k := OtherActive(ps, ct);
    var n := |ps|;
    var r := NextTurnIndex(ps, ct);
    var s := Succ(n, ct);
    assert r == Seek(ps, s);
    assert Dist(n, s, k) == Dist(n, ct, k) - 1;
    assert Dist(n, s, ct) == n - 1;
  }

  /** Two active players include one other than the given seat. */
  lemma {:induction false} OtherActive(ps: seq<Player>, c: nat) returns (k: nat)
    requires ActiveCount(ps) >= 2 && c < |ps|
    ensures k < |ps| && k != c && !ps[k].spectator
  {
    var tail := ps[1..];
    if !ps[0].spectator && c != 0 {
      k := 0;
    } else if c == 0 {
      var j := FirstActive(tail).value;
      k := j + 1;
    } else {
      var j := OtherActive(tail, c - 1);
      k := j + 1;
    }
  }

  /** The body of the `setTimeout` callback at server.js:117-131: clear the
      selections, then end the game or hand the turn on. */
  function Advance(room: Room): (o: AdvanceOutcome)
    ensures o.room.selections == []
    ensures o.room == room.(selections := [], currentTurn := o.room.currentTurn)
    ensures o.GameOver? <==> ActiveCount(room.players) <= 1
    ensures o.GameOver? ==> o.room.currentTurn == room.currentTurn
    ensures o.GameOver? ==> (o.winner.None? <==> ActiveCount(room.players) == 0)
    ensures o.GameOver? && o.winner.Some? ==>
      exists i :: 0 <= i < |room.players| && !room.players[i].spectator && room.players[i].name == o.winner.value
    ensures o.NextTurn? ==>
      o.room.currentTurn < |room.players| && !room.players[o.room.currentTurn].spectator
    ensures o.NextTurn? && room.currentTurn < |room.players| ==> o.room.currentTurn != room.currentTurn
    ensures o.NextTurn? && room.currentTurn < |room.players| ==>
      var n, ct := |room.players|, room.currentTurn;
      forall k :: 0 <= k < n && 0 < Dist(n, ct, k) < Dist(n, ct, o.room.currentTurn) ==> room.players[k].spectator
    ensures o.NextTurn? && room.currentTurn >= |room.players| ==>
      var n := |room.players|;
      var s := (room.currentTurn + 1) % n;
      forall k :: 0 <= k < n && Dist(n, s, k) < Dist(n, s, o.room.currentTurn) ==> room.players[k].spectator
  {
    var cleared := room.(selections := []);
    if ActiveCount(room.players) <= 1 then
      var winner := match FirstActive(room.players)
        case Some(i) => Some(room.players[i].name)
        case None => None;
      GameOver(cleared, winner)
    else if room.currentTurn < |room.players| then
      TurnMoves(room.players, room.currentTurn);
      NextTurn(cleared.(currentTurn := NextTurnIndex(room.players, room.currentTurn)))
    else
      NextTurn(cleared.(currentTurn := NextTurnIndex(room.players, room.currentTurn)))
  }

  /** The `do … while` loop of server.js:125-127 as written. It ends because
      an active player exists; each pass moves one seat closer to the
      first active one. */
  method AdvanceLoop(ps: seq<Player>, ct: nat) returns (next: nat)
    requires ActiveCount(ps) > 0
    ensures next < |ps| && !ps[next].spectator
    ensures next == NextTurnIndex(ps, ct)
  {
    var n := |ps|;
    next := (ct + 1) % n;
    ghost var start := next;
    ghost var t := FirstActive(ps).value;
    while ps[next].spectator
      invariant next < n
      invariant Dist(n, start, next) <= Dist(n, start, t)
      invariant forall k :: 0 <= k < n && Dist(n, start, k) < Dist(n, start, next) ==> ps[k].spectator
      decreases Dist(n, start, t) - Dist(n, start, next)
    {
      DistSucc(n, start, next);
      next := (next + 1) % n;
    }
    SeekUnique(ps, start, next);
  }
}

=== FILE: scenarios.dfy ===
/** Concrete traces of the model: the rounds of a three-player game as
    server.js prescribes them, and the two ways a disconnect mid-round
    derails the next resolution. */
module Scenarios {
  import opened Wrappers
  import opened Selections
  import opened Model
  import opened Round
  import opened Handlers
  import opened Invariants

  const A: Player := NewPlayer("a", "A")
  const B: Player := NewPlayer("b", "B")
  const C: Player := NewPlayer("c", "C")

  /** Three players A, B, C who have just started: A calls. */
  function Started(): Room {
    Room("R", [A, B, C], true, 0, [], [])
  }

  /** The active count of a three-player list, unrolled. */
  lemma CountThree(ps: seq<Player>)
    requires |ps| == 3
    ensures ActiveCount(ps) ==
      (if ps[0].spectator then 0 else 1) + (if ps[1].spectator then 0 else 1) + (if ps[2].spectator then 0 else 1)
  {
    var t1 := ps[1..];
    var t2 := t1[1..];
    assert t1[0] == ps[1] && t2[0] == ps[2] && t2[1..] == [];
    assert ActiveCount(t2) == (if ps[2].spectator then 0 else 1) + ActiveCount(t2[1..]);
    assert ActiveCount(t1) == (if ps[1].spectator then 0 else 1) + ActiveCount(t2);
  }

  /** The penalty on a three-player list, unrolled. */
  lemma PenalizeThree(ps: seq<Player>, turnId: PlayerId)
    requires |ps| == 3
    ensures Penalize(ps, turnId) == [Hit(ps[0], turnId), Hit(ps[1], turnId), Hit(ps[2], turnId)]
  {
  }

  /** The keys of two entries. */
  lemma KeysTwo(x: Entry, y: Entry)
    ensures Keys([x, y]) == {x.id, y.id}
  {
    assert [y][1..] == [];
    assert Keys([y]) == {y.id};
    assert [x, y][1..] == [y];
  }

  /** Three entries with three different ids have distinct keys. */
  lemma DistinctThree(x: Entry, y: Entry, z: Entry)
    requires x.id != y.id && x.id != z.id && y.id != z.id
    ensures DistinctKeys([x, y, z])
  {
    KeysTwo(y, z);
    assert [z][1..] == [];
    assert Keys([z]) == {z.id};
    assert DistinctKeys([z]);
    assert [y, z][1..] == [z];
    assert DistinctKeys([y, z]);
    assert [x, y, z][1..] == [y, z];
  }

  /** A third, new key is appended after the first two. */
  lemma AppendThird(x: Entry, y: Entry, z: Entry)
    requires z.id != x.id && z.id != y.id
    ensures Put([x, y], z.id, z.sel) == [x, y, z]
  {
    KeysTwo(x, y);
    PutNewAppends([x, y], z.id, z.sel);
  }

  /** The round total of three entries. */
  lemma SumThree(x: Entry, y: Entry, z: Entry)
    ensures SumRaised([x, y, z]) == x.sel.raised + y.sel.raised + z.sel.raised
  {
    SumRaisedAppend([x, y], z);
    SumRaisedAppend([x], y);
    assert [x] + [y] == [x, y] && [x, y] + [z] == [x, y, z];
    assert SumRaised([x]) == x.sel.raised;
  }

  /** Finding each of three players with distinct ids, unrolled. */
  lemma FindThree(ps: seq<Player>)
    requires |ps| == 3 && ps[0].id == "a" && ps[1].id == "b" && ps[2].id == "c"
    ensures FindPlayer(ps, "a") == Some(0)
    ensures FindPlayer(ps, "b") == Some(1)
    ensures FindPlayer(ps, "c") == Some(2)
  {
    assert ps[1..][1..][0].id == "c";
  }

  /** A submission by an active player in a three-player room, unrolled. */
  lemma SubmitThree(room: Room, sender: PlayerId, i: nat, v: Selection)
    requires |room.players| == 3 && room.players[0].id == "a" && room.players[1].id == "b" && room.players[2].id == "c"
    requires i < 3 && room.players[i].id == sender && !room.players[i].spectator
    ensures var recorded := room.(selections := Put(room.selections, sender, v));
      Select(room, sender, v.spoken, v.raised) ==
        if |recorded.selections| == ActiveCount(room.players) then Resolve(recorded) else Interim(recorded)
  {
    FindThree(room.players);
  }

  /** A calls 2 and the hands sum to 2. As written the call being right costs
      B and C a life each; A keeps 3; after the delay the turn passes to B. */
  lemma {:induction false} RightCallCostsOthers()
    ensures
      var o1 := Select(Started(), "a", 2, 1);
      && o1.Interim?
      && var o2 := Select(o1.room, "b", 0, 1);
      && o2.Interim?
      && var o3 := Select(o2.room, "c", 0, 0);
      && o3.Resolved?
      && o3.result.total == 2 && o3.result.spokenNum == 2 && o3.result.correct
      && o3.room.players == [A, Player("b", "B", 2, false), Player("c", "C", 2, false)]
      && Advance(o3.room).NextTurn?
      && Advance(o3.room).room.currentTurn == 1
  {
    var sa, sb, sc := Entry("a", Selection(2, 1)), Entry("b", Selection(0, 1)), Entry("c", Selection(0, 0));
    FirstTwoSubmit(2, 1, 0, 1);
    var r2 := Started().(selections := [sa, sb]);
    var hit := [A, Player("b", "B", 2, false), Player("c", "C", 2, false)];
    RightCallResolves();
    var resolved := Started().(players := hit, selections := [sa, sb, sc]);
    AdvanceToB(resolved);
  }

  /** A and then B submit into the fresh round: two interim updates. */
  lemma FirstTwoSubmit(spokenA: int, raisedA: int, spokenB: int, raisedB: int)
    ensures
      var sa, sb := Entry("a", Selection(spokenA, raisedA)), Entry("b", Selection(spokenB, raisedB));
      && Select(Started(), "a", spokenA, raisedA) == Interim(Started().(selections := [sa]))
      && Select(Started().(selections := [sa]), "b", spokenB, raisedB) == Interim(Started().(selections := [sa, sb]))
  {
    var sa, sb := Entry("a", Selection(spokenA, raisedA)), Entry("b", Selection(spokenB, raisedB));
    CountThree(Started().players);
    SubmitThree(Started(), "a", 0, sa.sel);
    SubmitThree(Started().(selections := [sa]), "b", 1, sb.sel);
    assert Put([sa], "b", sb.sel) == [sa, sb];
  }

  /** C's submission completes A's right call of 2. */
  lemma RightCallResolves()
    ensures
      var sa, sb, sc := Entry("a", Selection(2, 1)), Entry("b", Selection(0, 1)), Entry("c", Selection(0, 0));
      var hit := [A, Player("b", "B", 2, false), Player("c", "C", 2, false)];
      Select(Started().(selections := [sa, sb]), "c", 0, 0) ==
        Resolved(Started().(players := hit, selections := [sa, sb, sc]), RoundResult(2, 2, true, "A", [sa, sb, sc]))
  {
    var sa, sb, sc := Entry("a", Selection(2, 1)), Entry("b", Selection(0, 1)), Entry("c", Selection(0, 0));
    CountThree(Started().players);
    SubmitThree(Started().(selections := [sa, sb]), "c", 2, sc.sel);
    assert [sa, sb][1..] == [sb];
    assert Put([sb], "c", sc.sel) == [sb, sc];
    assert Put([sa, sb], "c", sc.sel) == [sa, sb, sc];
    assert Lookup([sa, sb, sc], "a") == Some(sa.sel);
    assert [sa, sb, sc][1..] == [sb, sc] && [sb, sc][1..] == [sc] && [sc][1..] == [];
    assert SumRaised([sc]) == 0;
    assert SumRaised([sa, sb, sc]) == 2;
    PenalizeThree(Started().players, "a");
  }

  /** With A on turn and B active, the advance hands the turn to B. */
  lemma AdvanceToB(room: Room)
    requires |room.players| == 3 && room.currentTurn == 0
    requires !room.players[0].spectator && !room.players[1].spectator && !room.players[2].spectator
    ensures Advance(room) == NextTurn(room.(selections := [], currentTurn := 1))
  {
    CountThree(room.players);
    assert Seek(room.players, 1) == 1;
  }

  /** A calls 3 and the hands sum to 2: a wrong call changes no one's lives,
      and the turn still passes to B. */
  lemma {:induction false} WrongCallChangesNothing()
    ensures
      var o1 := Select(Started(), "a", 3, 1);
      var o2 := Select(o1.room, "b", 0, 1);
      var o3 := Select(o2.room, "c", 0, 0);
      && o3.Resolved? && o3.result.total == 2 && !o3.result.correct
      && o3.room.players == Started().players
      && Advance(o3.room).room.currentTurn == 1
  {
    var sa, sb, sc := Entry("a", Selection(3, 1)), Entry("b", Selection(0, 1)), Entry("c", Selection(0, 0));
    FirstTwoSubmit(3, 1, 0, 1);
    WrongCallResolves();
    AdvanceToB(Started().(selections := [sa, sb, sc]));
  }

  /** C's submission completes A's wrong call of 3. */
  lemma WrongCallResolves()
    ensures
      var sa, sb, sc := Entry("a", Selection(3, 1)), Entry("b", Selection(0, 1)), Entry("c", Selection(0, 0));
      Select(Started().(selections := [sa, sb]), "c", 0, 0) ==
        Resolved(Started().(selections := [sa, sb, sc]), RoundResult(2, 3, false, "A", [sa, sb, sc]))
  {
    var sa, sb, sc := Entry("a", Selection(3, 1)), Entry("b", Selection(0, 1)), Entry("c", Selection(0, 0));
    var full := Started().(selections := [sa, sb, sc]);
    assert Put([sa, sb], "c", sc.sel) == [sa, sb, sc] by {
      AppendThird(sa, sb, sc);
    }
    assert Resolve(full) == Resolved(full, RoundResult(2, 3, false, "A", [sa, sb, sc])) by {
      assert Lookup([sa, sb, sc], "a") == Some(sa.sel);
      SumThree(sa, sb, sc);
    }
    assert ActiveCount(Started().players) == 3 by {
      CountThree(Started().players);
    }
    SubmitThree(Started().(selections := [sa, sb]), "c", 2, sc.sel);
  }

  /** B is down to one life when A calls right: B is eliminated, and the
      advance skips B and hands the turn to C. */
  lemma {:induction false} EliminatedPlayerIsSkipped()
    ensures
      var e, f, g := Entry("a", Selection(0, 0)), Entry("b", Selection(0, 0)), Entry("c", Selection(0, 0));
      var room := Started().(players := [A, Player("b", "B", 1, false), C], selections := [e, f]);
      var out := [A, Player("b", "B", 0, true), Player("c", "C", 2, false)];
      && Select(room, "c", 0, 0) == Resolved(room.(players := out, selections := [e, f, g]), RoundResult(0, 0, true, "A", [e, f, g]))
      && Advance(room.(players := out, selections := [e, f, g])) == NextTurn(room.(players := out, selections := [], currentTurn := 2))
  {
    LastLifeLost();
    var e, f, g := Entry("a", Selection(0, 0)), Entry("b", Selection(0, 0)), Entry("c", Selection(0, 0));
    var room := Started().(players := [A, Player("b", "B", 1, false), C], selections := [e, f]);
    var out := [A, Player("b", "B", 0, true), Player("c", "C", 2, false)];
    SkipsSpectator(room.(players := out, selections := [e, f, g]));
  }

  /** A's right call of 0 takes B's last life. */
  lemma LastLifeLost()
    ensures
      var e, f, g := Entry("a", Selection(0, 0)), Entry("b", Selection(0, 0)), Entry("c", Selection(0, 0));
      var room := Started().(players := [A, Player("b", "B", 1, false), C], selections := [e, f]);
      var out := [A, Player("b", "B", 0, true), Player("c", "C", 2, false)];
      Select(room, "c", 0, 0) == Resolved(room.(players := out, selections := [e, f, g]), RoundResult(0, 0, true, "A", [e, f, g]))
  {
    var e, f, g := Entry("a", Selection(0, 0)), Entry("b", Selection(0, 0)), Entry("c", Selection(0, 0));
    var room := Started().(players := [A, Player("b", "B", 1, false), C], selections := [e, f]);
    var out := [A, Player("b", "B", 0, true), Player("c", "C", 2, false)];
    var full := room.(selections := [e, f, g]);
    assert Put([e, f], "c", g.sel) == [e, f, g] by {
      AppendThird(e, f, g);
    }
    assert Resolve(full) == Resolved(full.(players := out), RoundResult(0, 0, true, "A", [e, f, g])) by {
      assert Lookup([e, f, g], "a") == Some(e.sel);
      SumThree(e, f, g);
      PenalizeThree(room.players, "a");
    }
    assert ActiveCount(room.players) == 3 by {
      CountThree(room.players);
    }
    SubmitThree(room, "c", 2, g.sel);
    assert room.(selections := Put(room.selections, "c", g.sel)) == full;
  }

  /** With A on turn, B a spectator and C active, the advance lands on C. */
  lemma SkipsSpectator(room: Room)
    requires |room.players| == 3 && room.currentTurn == 0
    requires !room.players[0].spectator && room.players[1].spectator && !room.players[2].spectator
    ensures Advance(room) == NextTurn(room.(selections := [], currentTurn := 2))
  {
    CountThree(room.players);
    assert Seek(room.players, 1) == Seek(room.players, 2) == 2;
  }

  /** The active count of a two-player list, unrolled. */
  lemma CountTwo(ps: seq<Player>)
    requires |ps| == 2
    ensures ActiveCount(ps) == (if ps[0].spectator then 0 else 1) + (if ps[1].spectator then 0 else 1)
  {
    var t := ps[1..];
    assert t[0] == ps[1] && t[1..] == [];
    assert ActiveCount(t) == (if ps[1].spectator then 0 else 1) + ActiveCount(t[1..]);
  }

  /** What is left of the started room once C has disconnected. */
  lemma CLeaves(room: Room)
    requires room.players == [A, B, C]
    ensures Leave(room, "c") == Some(room.(players := [A, B]))
  {
    assert [A, B, C][1..] == [B, C] && [B, C][1..] == [C] && [C][1..] == [];
    assert RemovePlayer([C], "c") == [];
    assert RemovePlayer([B, C], "c") == [B];
    assert RemovePlayer([A, B, C], "c") == [A, B];
  }

  /** C holds the turn and leaves after A has submitted. The room was safe,
      but the turn index now points past the end of the list, so B's
      submission completes the count and the resolution throws. */
  lemma {:induction false} TurnHolderLeavesThenFault()
    ensures
      var room := Started().(currentTurn := 2, selections := [Entry("a", Selection(0, 1))]);
      && Safe(room)
      && Leave(room, "c") == Some(room.(players := [A, B]))
      && Select(room.(players := [A, B]), "b", 0, 1).Faulted?
  {
    var e := Entry("a", Selection(0, 1));
    var room := Started().(currentTurn := 2, selections := [e]);
    assert Keys([e]) == {"a"} by {
    }
    assert "a" in ActiveIds(room.players);
    CLeaves(room);
    var left := room.(players := [A, B]);
    assert [A, B][1..] == [B];
    assert FindPlayer([A, B], "b") == Some(1);
    PutNewAppends([e], "b", Selection(0, 1));
    CountTwo([A, B]);
  }

  /** C submits and leaves; C's entry stays behind, so A's submission alone
      makes the count equal the two active players, and the round resolves
      (B losing a life) although B never answered. */
  lemma {:induction false} LeaverStillCounted()
    ensures
      var room := Started().(selections := [Entry("c", Selection(0, 1))]);
      var left := room.(players := [A, B]);
      var sels := [Entry("c", Selection(0, 1)), Entry("a", Selection(1, 0))];
      && Safe(room)
      && Leave(room, "c") == Some(left)
      && Lookup(sels, "b").None?
      && Select(left, "a", 1, 0) ==
           Resolved(left.(players := [A, Player("b", "B", 2, false)], selections := sels), RoundResult(1, 1, true, "A", sels))
  {
    var e, f := Entry("c", Selection(0, 1)), Entry("a", Selection(1, 0));
    var room := Started().(selections := [e]);
    assert Safe(room) by {
      assert Keys([e]) == {"c"} by {
        assert [e][1..] == [];
      }
      assert "c" in ActiveIds(room.players);
    }
    CLeaves(room);
    KeysTwo(e, f);
    LeaverCounted();
  }

  /** A's submission after C has left resolves the round. */
  lemma LeaverCounted()
    ensures
      var sels := [Entry("c", Selection(0, 1)), Entry("a", Selection(1, 0))];
      var left := Started().(players := [A, B], selections := [Entry("c", Selection(0, 1))]);
      Select(left, "a", 1, 0) ==
        Resolved(left.(players := [A, Player("b", "B", 2, false)], selections := sels), RoundResult(1, 1, true, "A", sels))
  {
    var e, f := Entry("c", Selection(0, 1)), Entry("a", Selection(1, 0));
    var left := Started().(players := [A, B], selections := [e]);
    var full := left.(selections := [e, f]);
    var hit := [A, Player("b", "B", 2, false)];
    assert Put([e], "a", f.sel) == [e, f] by {
      assert Keys([e]) == {"c"} by {
        assert [e][1..] == [];
      }
      PutNewAppends([e], "a", f.sel);
    }
    assert Resolve(full) == Resolved(full.(players := hit), RoundResult(1, 1, true, "A", [e, f])) by {
      assert Lookup([e, f], "a") == Some(f.sel);
      assert SumRaised([e, f]) == 1 by {
        SumRaisedAppend([e], f);
        assert SumRaised([e]) == 1;
      }
      var pen := Penalize([A, B], "a");
      assert pen[0] == A && pen[1] == hit[1];
      assert pen == hit;
    }
    assert ActiveCount([A, B]) == 2 by {
      CountTwo([A, B]);
    }
    assert FindPlayer([A, B], "a") == Some(0);
  }

  /** During the delay before the advance the selections are still full, so
      B submitting again overwrites B's entry and resolves the same round a
      second time. */
  lemma {:induction false} ResubmitResolvesAgain()
    ensures
      var sa, sb, sc := Entry("a", Selection(3, 1)), Entry("b", Selection(0, 1)), Entry("c", Selection(0, 0));
      var resolved := Started().(selections := [sa, sb, sc]);
      && Select(Started().(selections := [sa, sb]), "c", 0, 0).room == resolved
      && Select(resolved, "b", 0, 1).Resolved?
  {
    WrongCallResolves();
    SecondResolution();
  }

  /** B's second submission into the already resolved round. */
  lemma SecondResolution()
    ensures
      var sa, sb, sc := Entry("a", Selection(3, 1)), Entry("b", Selection(0, 1)), Entry("c", Selection(0, 0));
      Select(Started().(selections := [sa, sb, sc]), "b", 0, 1).Resolved?
  {
    var sa, sb, sc := Entry("a", Selection(3, 1)), Entry("b", Selection(0, 1)), Entry("c", Selection(0, 0));
    var resolved := Started().(selections := [sa, sb, sc]);
    assert Put([sa, sb, sc], "b", sb.sel) == [sa, sb, sc] by {
      DistinctThree(sa, sb, sc);
      PutOldInPlace([sa, sb, sc], 1, sb.sel);
      assert [sa, sb, sc][1 := sb] == [sa, sb, sc];
    }
    assert Resolve(resolved).Resolved? by {
      assert Lookup([sa, sb, sc], "a") == Some(sa.sel);
    }
    assert ActiveCount(resolved.players) == 3 by {
      CountThree(resolved.players);
    }
    SubmitThree(resolved, "b", 1, sb.sel);
  }
}

=== FILE: selections.dfy ===
/** The per-round `selections` object of a room: submissions keyed by the
    submitting connection's id. A JavaScript object keeps string keys that are
    not array indices (socket ids never are) in insertion order and
    overwriting a key keeps its position, so it is modelled
    as a list of entries with distinct keys; `Keys`, `Lookup` and `Put` are its
    map view. */
module Selections {
  import opened Wrappers

  /** A connection id assigned by the transport; it doubles as the player id. */
  type PlayerId = string

  /** What one player submitted this round: the number called out (only the
      current-turn player's counts) and the number raised (everyone's counts). */
  datatype Selection = Selection(spoken: int, raised: int)

  datatype Entry = Entry(id: PlayerId, sel: Selection)

  /** The keys of the object, i.e. `Object.keys(selections)` as a set. */
  function Keys(s: seq<Entry>): set<PlayerId> {
    if |s| == 0 then {} else {s[0].id} + Keys(s[1..])
  }

  /** No key occurs twice, as in any JavaScript object. */
  predicate DistinctKeys(s: seq<Entry>) {
    |s| == 0 || (s[0].id !in Keys(s[1..]) && DistinctKeys(s[1..]))
  }

  /** `selections[k]`: the submission stored under `k`, if any. */
  function Lookup(s: seq<Entry>, k: PlayerId): (r: Option<Selection>)
    ensures r.Some? <==> k in Keys(s)
  {
    if |s| == 0 then None
    else if s[0].id == k then Some(s[0].sel)
    else Lookup(s[1..], k)
  }

  /** `selections[k] = v`: overwrites the entry of `k` in place, or appends a
      new entry at the end when `k` is not yet a key. */
  function Put(s: seq<Entry>, k: PlayerId, v: Selection): (r: seq<Entry>)
    ensures Keys(r) == Keys(s) + {k}
    ensures Lookup(r, k) == Some(v)
    ensures forall k' :: k' != k ==> Lookup(r, k') == Lookup(s, k')
  {
    if |s| == 0 then [Entry(k, v)]
    else if s[0].id == k then
      var r := [Entry(k, v)] + s[1..];
      assert r[1..] == s[1..];
      r
    else
      var t := Put(s[1..], k, v);
      var r := [s[0]] + t;
      assert r[1..] == t;
      r
  }

  /** Writing a key keeps the keys distinct, and grows the list by one entry
      exactly when the key was new. */
  lemma {:induction false} PutShape(s: seq<Entry>, k: PlayerId, v: Selection)
    ensures |Put(s, k, v)| == if k in Keys(s) then |s| else |s| + 1
    ensures DistinctKeys(s) ==> DistinctKeys(Put(s, k, v))
  {
    if |s| > 0 {
      var r := Put(s, k, v);
      if s[0].id == k {
        assert r[1..] == s[1..];
      } else {
        PutShape(s[1..], k, v);
        assert r[1..] == Put(s[1..], k, v);
      }
    }
  }

  /** A key seen for the first time goes to the end, after every key already
      present: the insertion order of a JavaScript object. */
  lemma {:induction false} PutNewAppends(s: seq<Entry>, k: PlayerId, v: Selection)
    requires k !in Keys(s)
    ensures Put(s, k, v) == s + [Entry(k, v)]
  {
    if |s| > 0 {
      assert Put(s, k, v) == [s[0]] + Put(s[1..], k, v);
      PutNewAppends(s[1..], k, v);
      assert [s[0]] + (s[1..] + [Entry(k, v)]) == s + [Entry(k, v)];
    }
  }

  /** Overwriting a key keeps its entry where it was and leaves every other
      entry alone. */
  lemma {:induction false} PutOldInPlace(s: seq<Entry>, i: nat, v: Selection)
    requires DistinctKeys(s) && i < |s|
    ensures Put(s, s[i].id, v) == s[i := Entry(s[i].id, v)]
  {
    var e := Entry(s[i].id, v);
    if i > 0 {
      var t := s[1..];
      assert t[i - 1] == s[i];
      assert s[0].id != s[i].id by {
        KeyAt(t, i - 1);
      }
      PutOldInPlace(t, i - 1, v);
      assert Put(s, s[i].id, v) == [s[0]] + t[i - 1 := e];
      assert [s[0]] + t[i - 1 := e] == s[i := e] by {
        assert s == [s[0]] + t;
      }
    } else {
      assert [e] + s[1..] == s[0 := e];
    }
  }

  /** The id of every entry is a key. */
  lemma {:induction false} KeyAt(s: seq<Entry>, i: nat)
    requires i < |s|
    ensures s[i].id in Keys(s)
  {
    if i > 0 {
      KeyAt(s[1..], i - 1);
      assert s[1..][i - 1] == s[i];
    }
  }

  /** `Object.values(selections).reduce((sum, s) => sum + s.raised, 0)`. */
  function SumRaised(s: seq<Entry>): int {
    if |s| == 0 then 0 else s[0].sel.raised + SumRaised(s[1..])
  }

  /** The raised number stored under `k`, or 0 when `k` has no entry. */
  function RaisedOf(s: seq<Entry>, k: PlayerId): int {
    match Lookup(s, k)
    case Some(v) => v.raised
    case None => 0
  }

  /** Adding an entry at the end adds its raised number to the total. */
  lemma {:induction false} SumRaisedAppend(s: seq<Entry>, e: Entry)
    ensures SumRaised(s + [e]) == SumRaised(s) + e.sel.raised
  {
    if |s| == 0 {
      assert s + [e] == [e];
      assert [e][1..] == [];
    } else {
      assert (s + [e])[1..] == s[1..] + [e];
      SumRaisedAppend(s[1..], e);
    }
  }

  /** With distinct keys the number of keys is the number of entries, so
      `Object.keys(selections).length` is the length of the entry list. */
  lemma {:induction false} KeysCount(s: seq<Entry>)
    requires DistinctKeys(s)
    ensures |Keys(s)| == |s|
  {
    if |s| > 0 {
      KeysCount(s[1..]);
    }
  }

  /** Overwriting or adding one submission changes the round total by exactly
      the difference between the new raised number and the one it replaces. */
  lemma {:induction false} SumRaisedPut(s: seq<Entry>, k: PlayerId, v: Selection)
    requires DistinctKeys(s)
    ensures SumRaised(Put(s, k, v)) == SumRaised(s) - RaisedOf(s, k) + v.raised
  {
    if |s| > 0 && s[0].id != k {
      SumRaisedPut(s[1..], k, v);
      var t := Put(s[1..], k, v);
      assert Put(s, k, v) == [s[0]] + t;
      assert ([s[0]] + t)[1..] == t;
    }
  }
}

=== FILE: wrappers.dfy ===
/** Option and Result values for lookups that can miss and handlers that can refuse. */
module Wrappers {

  /** A value that may be absent (a JavaScript `undefined`). */
  datatype Option<+T> = None | Some(value: T)

  /** The outcome of a handler that either changes a room or answers with an error. */
  datatype Result<+T, +E> = Ok(value: T) | Err(error: E)
}
